=== FILE: README.md ===
# Registration and login form validation, modelled in Dafny

The web app has four places that decide whether a form may be submitted:

- `public/script.js` is the vanilla registration script. It has three field rules: a name of at least three characters, an e-mail matching `^[^\s@]+@[^\s@]+\.[^\s@]+$`, and a confirmation that equals the e-mail. The script runs the rule of one field when that input changes. On submit it runs all three rules and cancels the submission when a field is in error.
- `public/form-validation.js` is a second vanilla script for the same form, with different rules: a non-blank name, a non-blank e-mail, and an untrimmed exact confirmation. It always cancels the native submission, clears every error, revalidates, and calls `form.submit()` itself when no error is left.
- `src/components/Form.jsx` is the React registration form. It blocks on mismatching passwords and otherwise signs the user up with the full name `firstname lastname`.
- `src/pages/Login.jsx` is the React login page. It is a sign-in/sign-up mode machine with an empty-field guard on sign-up and on password reset.

The model is functional. Strings are `seq<char>` (one element per Unicode code point), every rule is a pure function returning a `Verdict`, and every controller is a pure transition over an immutable record of what the page shows.

The modules are:

- `Text` covers JavaScript's white-space class, `String.prototype.trim`, and `length` in UTF-16 code units.
- `EmailPattern` gives the regular expression three ways: its literal reading, a structural description, and a single-pass matcher. All three are proved equal.
- `Rules` holds the two rule tables (`ScriptTable` and `FormValidationTable`) and the lemmas comparing them.
- `ScriptJs` and `FormValidationJs` model the two vanilla scripts' controllers.
- `RegisterForm` and `LoginPage` model the React handlers. The backend's answer is a parameter (`Outcome = Ok | Err(message)`). Each handler returns a `Run`: the state rendered while the call is in flight, the call made, the final state, and the navigation target.

A few modelling choices:

- White space is the exact ECMAScript set (WhiteSpace plus LineTerminator code points). `trim` strips exactly this set and `\s` matches exactly this set.
- The script's name rule counts UTF-16 code units, as JavaScript's `length` does. So two characters outside the Basic Multilingual Plane already make a name of length 4, which is valid. Counting code points instead gives the same verdict whenever every character of the trimmed name is in that plane (`Rules.TightLength`). The two readings disagree exactly when the trimmed name has fewer than 3 code points but at least 3 UTF-16 units. `Rules.NameRule` states both bounds.
- The registration script's input listener dispatches on the `name` attribute, while `validateForm` and `validateConfirmEmail` look inputs up by `id`. The model assumes that each input's `name` and `id` agree (`name`, `email`, `confirm-email`).

## Model

| member | source | states |
|---|---|---|
| Text.IsWs | public/script.js:45 | the white space `trim` strips and `\s` excludes is exactly the ECMAScript WhiteSpace and LineTerminator code points: tab, line feed, vertical tab, form feed, carriage return, space, no-break space, U+1680, U+2000 to U+200A, U+2028, U+2029, U+202F, U+205F, U+3000 and U+FEFF |
| Text.Trim | public/script.js:45 | `trim` cuts a blank prefix and a blank suffix, and what is left neither starts nor ends with white space |
| Text.TrimOfIsTrim | public/script.js:45 | any string that is `s` without blank ends and starts and ends with non-blank characters is `Trim(s)`, so the trim is unique |
| Text.TrimIdempotent | public/script.js:67-69 | trimming twice is trimming once |
| Text.TrimEmptyIffBlank | public/form-validation.js:9 | `trim(s) === ''` exactly when every character of `s` is white space |
| Text.TrimPadded | public/script.js:57 | a value that neither starts nor ends with white space, padded with blanks on both sides, trims back to the value |
| Text.TrimBlankPrefix | public/script.js:69 | blanks put in front of a value do not change its trim |
| Text.Utf16Length | public/script.js:45 | `length` is at least the number of code points and at most twice that, and equals it exactly when every code point is in the Basic Multilingual Plane |
| EmailPattern.Matches | public/script.js:55 | the literal reading of the anchored pattern: the whole string is three non-empty runs of characters other than white space and `@` (dots allowed), joined by `@` and then by a dot, which may be any dot after the `@` that leaves both runs around it non-empty |
| EmailPattern.MatchesIffShape | public/script.js:55 | the anchored pattern matches exactly when the string has one `@`, not first, no white space or other `@`, and a dot in the domain with a character on each side |
| EmailPattern.MatchHasOneAt | public/script.js:55 | a match has exactly one `@`, at least one character before it and at least three after it, and no white space |
| EmailPattern.Test | public/script.js:55-57 | the single-pass scan returns true exactly when the pattern matches |
| EmailPattern.JoinedMatches | public/script.js:55 | three non-empty runs of characters other than white space and `@`, joined as `local@domain.tld`, match |
| EmailPattern.AcceptsPlain | public/script.js:55 | `a@b.co` matches |
| EmailPattern.AcceptsTaggedSubdomain | public/script.js:55 | `a.b+c@m.ex.org` matches: `+` and `.` in the local part and a further dot in the domain are accepted |
| EmailPattern.RejectsNoDot | public/script.js:55 | `a@b` is rejected |
| EmailPattern.RejectsDoubleAt | public/script.js:55 | `a@@b.co` is rejected |
| EmailPattern.RejectsInnerSpace | public/script.js:55 | `a b@c.co` is rejected |
| Rules.NameRule | public/script.js:43-50 | script table: valid iff the trimmed name has at least 3 UTF-16 units, else "Name must be at least 3 characters long."; form-group table (public/form-validation.js:29-31): valid iff non-blank, else "Please enter your name."; a blank name fails both |
| Rules.EmailRule | public/script.js:53-62 | script table: valid iff the trimmed value has the pattern's shape, else "Please enter a valid email address."; form-group table (public/form-validation.js:33-35): valid iff non-blank, else "Please enter your email." |
| Rules.ConfirmRule | public/script.js:65-74 | script table: valid iff trimmed confirm equals trimmed current e-mail, else "Emails do not match. Please re-enter."; form-group table (public/form-validation.js:37-39): valid iff the raw values are equal, else "Emails do not match." |
| Rules.JudgeSpec | public/script.js:100-105 | the three verdicts read on the current values are each field's own rule, and they all pass exactly when the submission gate is open |
| Rules.Rule | public/script.js:43-74 | the field-to-rule table: the name rule reads the name, the e-mail rule the e-mail, and the confirm rule the confirmation together with the current e-mail |
| Rules.AllValid | public/script.js:105 | the submission gate of both scripts (also public/form-validation.js:41): every field passes its rule |
| Rules.NonBlankPasses | public/form-validation.js:29-39 | a name and an e-mail that hold a non-blank character, with a confirmation equal to the e-mail, pass the form-group table |
| Rules.AllValidIffEach | public/script.js:105 | the submission gate is the conjunction of the three verdicts |
| Rules.ScriptStricterOnNameAndEmail | public/form-validation.js:29-35 | a name or e-mail the script table accepts, the form-group table accepts too |
| Rules.OnlyFormValidationAccepts | public/form-validation.js:29-39 | `("Al", "al", "al")` passes the form-group table and fails the script table |
| Rules.ScriptRejectsShortName | public/script.js:45-46 | with the name `Al` the script table's gate is closed, whatever the other values |
| Rules.FormValidationAcceptsWords | public/form-validation.js:29-39 | `("Al", "al", "al")` passes the form-group table |
| Rules.PaddedConfirmSplitsTables | public/form-validation.js:37 | a confirmation that is the e-mail with blanks in front passes the script table and fails the form-group table |
| Rules.MatchedAddressValid | public/script.js:57 | an address the pattern matches as it stands passes the script's e-mail rule |
| Rules.PlainAddressValid | public/script.js:57 | `a@b.co` passes the script's e-mail rule |
| Rules.PaddedEmailAccepted | public/script.js:57 | any address the pattern matches passes the script's e-mail rule with any white space around it, because the value is trimmed first |
| Rules.TightLength | public/script.js:45 | a value without white space at either end and all in the Basic Multilingual Plane has a trimmed `length` equal to its number of characters |
| Rules.ShortTightNameTooShort | public/script.js:45-46 | such a value of fewer than three characters fails the script's name rule |
| Rules.TwoLetterNameTooShort | public/script.js:45-46 | `Al` fails the script's name rule |
| Rules.FiveLetterNameLongEnough | public/script.js:45-48 | `Alice` passes the script's name rule |
| Rules.ShortNameVerdicts | public/script.js:43-74 | on `("Al", "a@b.co", "a@b.co")` the script table fails the name and passes the e-mail and the confirmation |
| Rules.LongNameVerdicts | public/script.js:43-74 | on `("Alice", "a@b.co", "a@b.co")` the script table passes all three fields |
| Rules.TwoAstralCharactersAreLongEnough | public/script.js:45 | two characters outside the Basic Multilingual Plane make a valid name |
| ScriptJs.ShowError | public/script.js:77-82 | sets the text, shows it, adds the `error` class, and sets `aria-invalid` to "true" |
| ScriptJs.HideError | public/script.js:85-89 | hides the text without clearing it, removes the class, and sets `aria-invalid` to "false" |
| ScriptJs.Render | public/script.js:45-49 | once a rule has spoken, the field is in error iff the verdict fails, shows that verdict's message, and a valid field keeps its old, hidden text |
| ScriptJs.Apply | public/script.js:43-74 | a verdict is rendered on its own field; the values and the other fields are unchanged |
| ScriptJs.ValidateOne | public/script.js:43-74 | one validator: the field is in error iff its rule fails on the current values, and it shows that rule's message; a valid field keeps its hidden message; nothing else changes |
| ScriptJs.FieldOfName | public/script.js:29-39 | exactly the attributes `name`, `email` and `confirm-email` select a field |
| ScriptJs.ValidateField | public/script.js:25-40 | any other attribute leaves the form as it is; `name`, `email` and `confirm-email` run that field's validator, which puts the field in error iff its rule fails on the current values, shows the rule's message, and changes no other field |
| ScriptJs.OnInput | public/script.js:5-7 | an input event on a listed field updates that value and revalidates that field alone against the new values: in error iff its rule fails, with the rule's message, the other fields unchanged; an unlisted attribute changes nothing |
| ScriptJs.ValidateForm | public/script.js:92-111 | after submit each field is in error iff its fresh verdict fails, the error views are coherent, and the default is prevented iff some field is in error iff the three rules do not all pass |
| ScriptJs.ValidateAll | public/script.js:100-102 | the three validators run in declaration order: name, e-mail, confirmation |
| ScriptJs.ValidateAllIsApplyAll | public/script.js:100-102 | no validator changes a value, so the three in a row render the verdicts of the values the form had before the first one |
| ScriptJs.ApplyAllSpec | public/script.js:100-107 | after the three renderings each field shows its own verdict, and some field carries the `error` class exactly when some verdict fails |
| ScriptJs.SubmitIdempotent | public/script.js:92-111 | a second submit with unchanged values gives the same page and the same decision |
| ScriptJs.SubmitForgetsEarlierState | public/script.js:99-102 | after submit the visible state depends only on the values, so a stale error does not survive |
| ScriptJs.ValidationOrderIrrelevant | public/script.js:100-102 | validating two fields in either order gives the same page |
| ScriptJs.EmailEditLeavesConfirm | public/script.js:33-35 | an edit of the e-mail input changes the e-mail value and leaves the confirm input's state and value alone |
| ScriptJs.StaleEditMarked | public/script.js:33-35 | an e-mail edit that breaks the confirm rule is not shown on the confirm input, and the next submit marks it and cancels |
| ScriptJs.SubmitMarksFailing | public/script.js:100-110 | a field whose rule fails is marked on submit, and the submission is cancelled |
| ScriptJs.StaleConfirmCaughtOnSubmit | public/script.js:33-35 | editing the e-mail leaves a confirmation verdict stale; the next submit marks it and blocks the submission |
| ScriptJs.ShortNameBlocksAlone | public/script.js:105-111 | `("Al", "a@b.co", "a@b.co")` blocks the submission with the name as the only error |
| ScriptJs.LongNameSubmits | public/script.js:105-111 | `("Alice", "a@b.co", "a@b.co")` submits with no error shown |
| FormValidationJs.ShowError | public/form-validation.js:47-54 | adds the group's `error` class, sets the text and shows it |
| FormValidationJs.HideError | public/form-validation.js:57-63 | removes the class and hides the text, which is kept |
| FormValidationJs.ShowErrorIn | public/form-validation.js:47-54 | showing an error in one group leaves the other groups and the values alone |
| FormValidationJs.HideErrorIn | public/form-validation.js:57-63 | hiding an error in one group leaves the other groups and the values alone |
| FormValidationJs.OnNameInput | public/form-validation.js:8-14 | the name listener shows "Please enter your name." iff the name is blank and leaves the e-mail and confirm groups untouched |
| FormValidationJs.Check | public/form-validation.js:29-39 | one check shows its message when its rule fails and otherwise leaves its group as it was |
| FormValidationJs.HideAll | public/form-validation.js:25-27 | the reset hides the three groups in order |
| FormValidationJs.HideAllSpec | public/form-validation.js:25-27 | after the reset every group is hidden, keeps its text, and the values are unchanged |
| FormValidationJs.CheckAll | public/form-validation.js:29-39 | the three checks run in declaration order: name, e-mail, confirmation |
| FormValidationJs.CheckAllSpec | public/form-validation.js:29-39 | the three checks leave each group showing its failing verdict's message, or untouched when the verdict passes |
| FormValidationJs.Mark | public/form-validation.js:25-39 | a reset group then checked is in error iff its verdict fails, shows that verdict's message, and otherwise keeps its hidden text |
| FormValidationJs.ResetCheckSpec | public/form-validation.js:25-41 | after the reset and the three checks every group is its verdict's mark, whatever it showed before, and no group is in error iff every verdict passes |
| FormValidationJs.ValidateForm | public/form-validation.js:23-44 | each group is in error iff its rule fails and shows that rule's message; `form.submit()` is called iff all three rules pass |
| FormValidationJs.OnInput | public/form-validation.js:8-14 | an edit sets the value of its own input; an edit of the name runs the name listener, and an edit of the e-mail or confirmation changes no group, since only the name input has a listener |
| FormValidationJs.OnSubmit | public/form-validation.js:17-20 | the native submission is always cancelled; the page is what `validateForm` leaves, so each group is in error iff its rule fails and shows that rule's message; the script submits iff the name and e-mail are non-blank and the confirmation equals the e-mail |
| FormValidationJs.SubmitForgetsEarlierState | public/form-validation.js:25-27 | after submit the visible state and the decision depend only on the values |
| FormValidationJs.NameInputAgreesWithSubmit | public/form-validation.js:9-10 | the live name check and the submit-time name check show the same thing |
| FormValidationJs.EmailEditCaughtOnSubmit | public/form-validation.js:8-14 | an e-mail edit that breaks the confirmation leaves the confirm group as it was; the next submit shows the mismatch and does not submit |
| FormValidationJs.EditThenSubmitForgetsLiveCheck | public/form-validation.js:17-27 | after an edit and a submit the page and the decision depend only on the edited values, not on what the live check showed |
| FormValidationJs.SubmitIdempotent | public/form-validation.js:23-44 | a second submit with unchanged values gives the same page and the same decision |
| RegisterForm.FullName | src/components/Form.jsx:35 | the full name is the first name, one space, then the last name |
| RegisterForm.SplitFullName | src/components/Form.jsx:35 | reading back at the first space gives two names whose full name is the string |
| RegisterForm.SplitFullNameInverse | src/components/Form.jsx:35 | a first name without a space is recovered, with the last name, from the full name |
| RegisterForm.FullNameNotInjective | src/components/Form.jsx:35 | with a space in the first name, two different pairs give the same full name |
| RegisterForm.HandleRegister | src/components/Form.jsx:16-50 | mismatching passwords give "Passwords don't match" and no backend call; otherwise loading is set, the error is cleared and the sign-up is sent with the full name; success navigates to `/login`, failure shows "There was an error registering your account."; loading ends false and no input changes |
| RegisterForm.ErrorIffStays | src/components/Form.jsx:40-46 | when the handler is done, an error shows exactly when it did not navigate away |
| RegisterForm.MismatchIgnoresBackend | src/components/Form.jsx:21-25 | with mismatching passwords the backend's answer plays no part |
| RegisterForm.EarlierErrorForgotten | src/components/Form.jsx:19 | the error shown before the attempt does not affect it |
| RegisterForm.RetrySendsSameRequest | src/components/Form.jsx:27-38 | a retry after any run sends the same request again |
| RegisterForm.UntouchedFormSendsBlankName | src/components/Form.jsx:7-13 | the form as it first renders has two equal empty passwords, so its submit sends a sign-up with empty credentials and the full name `" "` (src/components/Form.jsx:21-35) |
| LoginPage.Refuse | src/pages/Login.jsx:36 | an early return changes only the error and calls nothing |
| LoginPage.HandleLogin | src/pages/Login.jsx:15-33 | no guard; the error is cleared and loading set during the call; success stores the user and goes to `/dashboard`; failure shows the backend's message; loading ends false |
| LoginPage.HandleForgotPassword | src/pages/Login.jsx:35-47 | an empty e-mail is refused with "Please enter your email."; otherwise the reset is requested and the outcome is reported through the error text, with "Check your email for reset instructions." on success |
| LoginPage.HandleSignUp | src/pages/Login.jsx:49-69 | an empty e-mail or password is refused with "Email and password are required."; success clears both fields and switches to login mode but keeps the error; failure shows the backend's message |
| LoginPage.Submit | src/pages/Login.jsx:81 | in sign-up mode the form runs `handleSignUp`, otherwise `handleLogin`; so it never requests a reset, and in login mode it always calls the backend |
| LoginPage.SetSignUpMode | src/pages/Login.jsx:120 | the mode links change the mode and nothing else |
| LoginPage.HandlersEndIdle | src/pages/Login.jsx:36-68 | starting idle, every handler ends idle on every path, the early returns of the two guards included, which never touch the loading flag |
| LoginPage.GuardsCheckEmptiness | src/pages/Login.jsx:51 | an e-mail of one ideographic space passes both guards because they test emptiness, not blankness |
| LoginPage.SignUpThenSubmitSignsIn | src/pages/Login.jsx:61-63 | after a successful sign-up the next submit signs in, with the cleared fields |
| LoginPage.SignUpSuccessKeepsEarlierError | src/pages/Login.jsx:60-63 | an error shown before a successful sign-up is still shown after it, whereas a successful sign-in clears it |
| LoginPage.OnlySignInNavigates | src/pages/Login.jsx:27 | only a successful sign-in leaves the page |
| LoginPage.FirstActionsFromInitial | src/pages/Login.jsx:8-12 | from the page as it first renders, the reset link is refused with "Please enter your email." and a submit signs in with empty credentials (src/pages/Login.jsx:36, 81) |

## Left out

- DOM plumbing is replaced by records of what the page shows: element look-ups, `closest`, `querySelector`, class lists and `style.display`. The form-group model assumes that each input sits in its own `.form-group`, which holds exactly one `.error-message` (public/form-validation.js:48-49, 58-59). The document-wide `.error` query in `public/form-validation.js` becomes "one of the three form groups has the `error` class". This assumes that no other element of the page carries that class, and in particular that `public/script.js`, which adds `error` to the inputs themselves, is not loaded on the same page.
- The navigation-menu toggle and the click-outside handler of `public/script.js` (lines 9-22) are page wiring with no validation in them.
- Backend calls, `localStorage`, `alert`, `console.error` and `navigate` are foreign I/O. The backend's answer is the `Outcome` parameter, a rejected promise and a returned error both arrive as `Err`, and navigation and storage are flags of the `Run` record.
- React's asynchronous scheduling and state batching: each handler is one transition, plus the single state rendered while it awaits the backend. Overlapping runs are not modelled. They cannot occur from the page anyway: the login form is not rendered while loading, and the registration form's submit button is disabled while loading (`src/components/Form.jsx:110`).
- RegisterForm.HandleRegister: on the mismatch path the momentary `loading = true` and cleared error are batched away by React before any render, so the run records no in-flight state there.
- `e.preventDefault()` in the React handlers and the browser's own input handling, which is outside the scripts. The first only stops the browser's own form post. The second covers the HTML `required` attributes and the `type="email"` input of `src/pages/Login.jsx:85`: the browser strips ASCII white space around its value and blocks a form submit whose value is not an address. So a blank value reaches `handleSignUp` and `handleLogin` only where the browser lets it through; `handleForgotPassword` is a button outside that check.
- `form.submit()` does not fire a `submit` event, so the submit listener does not run again. The model records the call as the `submitted` flag.
- The vanilla scripts' initial page state is not modelled. Every property holds from any starting state.
- Unpaired UTF-16 surrogates cannot be represented, because a Dafny `char` is a Unicode scalar value.
- Presentational and routing files carry no validation rules: `src/pages/Dashboard.jsx`, `src/pages/Overview.jsx`, `src/pages/Profile.jsx`, `src/components/Button.jsx`, `src/components/Card.jsx`, `src/components/Input.jsx`, `src/components/Checkbox.jsx`, `src/App.jsx` and `tailwind.config.js`. The `supabase` client module is not part of this model.

=== FILE: backend.dfy ===
/** The authentication backend as the React handlers see it. */
module Backend {

  /** What a call to the hosted authentication client comes back with:
      success, or an error object carrying a message. */
  datatype Outcome = Ok | Err(message: string)
}

=== FILE: email_pattern.dfy ===
/** The e-mail pattern `^[^\s@]+@[^\s@]+\.[^\s@]+$` of the registration
    script: its literal reading, an equivalent structural description, and a
    single-pass matcher. */
module EmailPattern {
  import opened Text

  /** The character class `[^\s@]`. */
  predicate InClass(c: char) {
    !IsWs(c) && c != '@'
  }

  /** Every character of `s` belongs to `[^\s@]`. */
  predicate AllInClass(s: string) {
    forall i :: 0 <= i < |s| ==> InClass(s[i])
  }

  /** `s` splits as `L @ D . T` with `L`, `D` and `T` non-empty runs of
      `[^\s@]`; `at` and `dot` are the positions of the separators. */
  predicate SplitsAt(s: string, at: int, dot: int) {
    && 0 < at && at + 1 < dot && dot + 1 < |s|
    && s[at] == '@' && s[dot] == '.'
    && AllInClass(s[..at]) && AllInClass(s[at + 1..dot]) && AllInClass(s[dot + 1..])
  }

  /** The regular expression, anchored at both ends, matches the whole of `s`. */
  predicate Matches(s: string) {
    exists at, dot | 0 <= at < |s| && 0 <= dot < |s| :: SplitsAt(s, at, dot)
  }

  /** `d` has a `.` with at least one character on each side of it. */
  predicate HasInnerDot(d: string) {
    exists j | 0 < j < |d| - 1 :: d[j] == '.'
  }

  /** The structural reading: exactly one `@`, not first, every other
      character outside white space and `@`, and a domain after the `@` that
      has a dot with a character on each side. */
  ghost predicate ShapeAt(s: string, at: int) {
    && 0 < at < |s| && s[at] == '@'
    && AllInClass(s[..at]) && AllInClass(s[at + 1..]) && HasInnerDot(s[at + 1..])
  }

  ghost predicate Shape(s: string) {
    exists at :: ShapeAt(s, at)
  }

  /** The literal regular-expression reading and the structural reading agree. */
  lemma MatchesIffShape(s: string)
    ensures Matches(s) <==> Shape(s)
  {
    if Matches(s) {
      var at, dot :| 0 <= at < |s| && 0 <= dot < |s| && SplitsAt(s, at, dot);
      var d := s[at + 1..];
      assert d == s[at + 1..dot] + ['.'] + s[dot + 1..];
      assert d[dot - at - 1] == '.';
      assert AllInClass(d);
      assert ShapeAt(s, at);
    }
    if Shape(s) {
      var at :| ShapeAt(s, at);
      var d := s[at + 1..];
      var j :| 0 < j < |d| - 1 && d[j] == '.';
      var dot := at + 1 + j;
      assert s[at + 1..dot] == d[..j];
      assert s[dot + 1..] == d[j + 1..];
      assert SplitsAt(s, at, dot);
    }
  }

  /** In a match, every character other than the `@` separator is in
      `[^\s@]`. */
  lemma MatchOthersInClass(s: string, at: int, dot: int)
    requires SplitsAt(s, at, dot)
    ensures forall k :: 0 <= k < |s| && k != at ==> InClass(s[k])
  {
    forall k | 0 <= k < |s| && k != at ensures InClass(s[k]) {
      if k < at {
        assert s[..at][k] == s[k];
      } else if k < dot {
        assert s[at + 1..dot][k - at - 1] == s[k];
      } else if dot < k {
        assert s[dot + 1..][k - dot - 1] == s[k];
      }
    }
  }

  /** A matched string holds exactly one `@`, at least one character before it
      and at least three after it, and no white space at all. */
  lemma MatchHasOneAt(s: string)
    ensures Matches(s) ==> exists at :: (0 < at < |s| - 3 && s[at] == '@'
      && forall k :: 0 <= k < |s| && s[k] == '@' ==> k == at)
    ensures Matches(s) ==> forall k :: 0 <= k < |s| ==> !IsWs(s[k])
  {
    if Matches(s) {
      var at, dot :| 0 <= at < |s| && 0 <= dot < |s| && SplitsAt(s, at, dot);
      MatchOthersInClass(s, at, dot);
    }
  }

  /** In a shape, every character other than the `@` is in `[^\s@]`. */
  lemma ShapeOthersInClass(s: string)
    ensures forall at, k :: ShapeAt(s, at) && 0 <= k < |s| && k != at ==> InClass(s[k])
  {
    forall at, k | ShapeAt(s, at) && 0 <= k < |s| && k != at ensures InClass(s[k]) {
      if k < at {
        assert s[..at][k] == s[k];
      } else {
        assert s[at + 1..][k - at - 1] == s[k];
      }
    }
  }

  /** A dot strictly inside the domain after position `at`, found among the
      positions before `i`. */
  predicate DotBefore(s: string, at: int, i: int) {
    exists j | 0 <= at + 2 <= j < i && j + 1 < |s| :: s[j] == '.'
  }

  /** `HasInnerDot` of the domain, in positions of the whole string. */
  lemma InnerDotIndex(s: string, at: int)
    requires 0 <= at < |s|
    ensures HasInnerDot(s[at + 1..]) <==> DotBefore(s, at, |s|)
  {
    var d := s[at + 1..];
    if HasInnerDot(d) {
      var j :| 0 < j < |d| - 1 && d[j] == '.';
      assert s[at + 1 + j] == d[j];
    }
    if DotBefore(s, at, |s|) {
      var j :| 0 <= at + 2 <= j < |s| && j + 1 < |s| && s[j] == '.';
      assert d[j - at - 1] == s[j];
    }
  }

  /** For a string without white space whose only `@` is at `at`, the shape
      comes down to an inner dot of the domain. */
  lemma ScanShape(s: string, at: int)
    requires 0 < at < |s| && s[at] == '@'
    requires forall k :: 0 <= k < |s| ==> !IsWs(s[k])
    requires forall k :: 0 <= k < |s| && k != at ==> s[k] != '@'
    ensures Shape(s) <==> DotBefore(s, at, |s|)
  {
    assert AllInClass(s[..at]) by {
      forall k | 0 <= k < at ensures InClass(s[..at][k]) {
        assert s[..at][k] == s[k];
      }
    }
    var d := s[at + 1..];
    assert AllInClass(d) by {
      forall k | 0 <= k < |d| ensures InClass(d[k]) {
        assert d[k] == s[at + 1 + k];
      }
    }
    InnerDotIndex(s, at);
    if DotBefore(s, at, |s|) {
      assert ShapeAt(s, at);
    }
  }

  /** Single-pass matcher: scans once, remembering the position of the `@`
      and whether an inner dot of the domain has been seen. */
  method Test(s: string) returns (m: bool)
    ensures m <==> Matches(s)
  {
    MatchesIffShape(s);
    ShapeOthersInClass(s);
    var at := -1;
    var dotSeen := false;
    var i := 0;
    while i < |s|
      invariant 0 <= i <= |s|
      invariant forall k :: 0 <= k < i ==> !IsWs(s[k])
      invariant at == -1 ==> forall k :: 0 <= k < i ==> s[k] != '@'
      invariant at != -1 ==> 0 < at < i && s[at] == '@'
      invariant at != -1 ==> forall k :: 0 <= k < i && k != at ==> s[k] != '@'
      invariant dotSeen <==> at != -1 && DotBefore(s, at, i)
    {
      var c := s[i];
      if IsWs(c) {
        return false;
      }
      if c == '@' {
        if at != -1 || i == 0 {
          return false;
        }
        at := i;
      } else if c == '.' && at != -1 && at + 2 <= i && i + 1 < |s| {
        dotSeen := true;
      }
      i := i + 1;
    }
    m := dotSeen;
    if at != -1 {
      ScanShape(s, at);
    }
  }

  /** Three non-empty runs of `[^\s@]` joined by `@` and `.` match. */
  lemma JoinedMatches(l: string, d: string, t: string)
    requires l != [] && d != [] && t != []
    requires AllInClass(l) && AllInClass(d) && AllInClass(t)
    ensures Matches(l + "@" + d + "." + t)
  {
    var s := l + "@" + d + "." + t;
    var at := |l|;
    var dot := |l| + 1 + |d|;
    assert s[..at] == l;
    assert s[at + 1..dot] == d;
    assert s[dot + 1..] == t;
    assert SplitsAt(s, at, dot);
  }

  /** The pattern accepts a plain address with a two-letter top-level label. */
  lemma AcceptsPlain()
    ensures Matches("a@b.co")
  {
    JoinedMatches("a", "b", "co");
    assert "a" + "@" + "b" + "." + "co" == "a@b.co";
  }

  /** `+` and `.` in the local part and subdomains are accepted. */
  lemma AcceptsTaggedSubdomain()
    ensures Matches("a.b+c@m.ex.org")
  {
    var l, d, t := "a.b+c", "m", "ex.org";
    assert AllInClass(l);
    assert AllInClass(d);
    assert AllInClass(t);
    JoinedMatches(l, d, t);
    assert l + "@" + d + "." + t == "a.b+c@m.ex.org";
  }

  /** A domain without a dot is rejected. */
  lemma RejectsNoDot()
    ensures !Matches("a@b")
  {
  }

  /** A doubled `@` is rejected. */
  lemma RejectsDoubleAt()
    ensures !Matches("a@@b.co")
  {
    var s := "a@@b.co";
    MatchHasOneAt(s);
    assert s[1] == '@' && s[2] == '@';
  }

  /** White space inside the address is rejected. */
  lemma RejectsInnerSpace()
    ensures !Matches("a b@c.co")
  {
    var s := "a b@c.co";
    MatchHasOneAt(s);
    assert IsWs(s[1]);
  }
}

=== FILE: form_validation_js.dfy ===
/** The form-group script: a live non-blank check on the name input, and a
    submit handler that always cancels the native submission, revalidates
    from a clean slate and submits programmatically when no form group is
    left in error. Error state lives on the `.form-group` around each input. */
module FormValidationJs {
  import opened Text
  import opened Rules

  /** A form group: the text and visibility of its `.error-message` element
      and whether the group carries the `error` class. */
  datatype GroupView = GroupView(message: string, shown: bool, errorClass: bool)

  /** Error styling and error visibility say the same. */
  predicate Coherent(v: GroupView) {
    v.shown == v.errorClass
  }

  /** `showError`: styles the group, sets the text and shows it. */
  function ShowError(v: GroupView, message: string): (r: GroupView)
    ensures r.errorClass && r.message == message && Coherent(r)
  {
    GroupView(message, true, true)
  }

  /** `hideError`: removes the styling and hides the text, which is kept. */
  function HideError(v: GroupView): (r: GroupView)
    ensures !r.errorClass && r.message == v.message && Coherent(r)
  {
    v.(shown := false, errorClass := false)
  }

  /** The visible state of a group: hidden text is not seen. */
  predicate SameVisible(a: GroupView, b: GroupView) {
    a.shown == b.shown && a.errorClass == b.errorClass && (a.shown ==> a.message == b.message)
  }

  /** The three inputs' values and their three form groups. */
  datatype Form = Form(values: Values, name: GroupView, email: GroupView, confirm: GroupView)

  function Group(f: Form, k: FieldKind): GroupView {
    match k
    case NameField => f.name
    case EmailField => f.email
    case ConfirmField => f.confirm
  }

  function WithGroup(f: Form, k: FieldKind, v: GroupView): (r: Form)
    ensures r.values == f.values && Group(r, k) == v
    ensures forall j :: j != k ==> Group(r, j) == Group(f, j)
  {
    match k
    case NameField => f.(name := v)
    case EmailField => f.(email := v)
    case ConfirmField => f.(confirm := v)
  }

  /** The form with `showError` applied to the group of field `k`. */
  function ShowErrorIn(f: Form, k: FieldKind, message: string): (r: Form)
    ensures r.values == f.values
    ensures Group(r, k) == ShowError(Group(f, k), message)
    ensures forall j :: j != k ==> Group(r, j) == Group(f, j)
  {
    WithGroup(f, k, ShowError(Group(f, k), message))
  }

  /** The form with `hideError` applied to the group of field `k`. */
  function HideErrorIn(f: Form, k: FieldKind): (r: Form)
    ensures r.values == f.values
    ensures Group(r, k) == HideError(Group(f, k))
    ensures forall j :: j != k ==> Group(r, j) == Group(f, j)
  {
    WithGroup(f, k, HideError(Group(f, k)))
  }

  /** The `input` listener of the name field: the name now holds `value`,
      and its group shows "Please enter your name." exactly when the value
      is blank. The other inputs have no listener. */
  function OnNameInput(f: Form, value: string): (r: Form)
    ensures r.values == f.values.(name := value)
    ensures r.email == f.email && r.confirm == f.confirm
    ensures Coherent(r.name)
    ensures r.name.errorClass <==> IsBlank(value)
    ensures r.name.errorClass ==> r.name.message == NameMissing
    ensures !r.name.errorClass ==> r.name.message == f.name.message
  {
    TrimEmptyIffBlank(value);
    var g := f.(values := f.values.(name := value));
    if Trim(value) == "" then ShowErrorIn(g, NameField, NameMissing) else HideErrorIn(g, NameField)
  }

  /** An `input` event on field `k`: the input now holds `value`. Only the
      name input has a listener, so an edit of the email or confirm input
      changes no group. */
  function OnInput(f: Form, k: FieldKind, value: string): (r: Form)
    ensures r.values == SetValue(f.values, k, value)
    ensures forall j :: j != k ==> Group(r, j) == Group(f, j)
    ensures k != NameField ==> r.name == f.name && r.email == f.email && r.confirm == f.confirm
    ensures k == NameField ==> r == OnNameInput(f, value)
  {
    if k == NameField then OnNameInput(f, value)
    else f.(values := SetValue(f.values, k, value))
  }

  /** The form after `validateForm`, and whether it called `form.submit()`. */
  datatype Validation = Validation(form: Form, submitted: bool)

  /** `validateForm`: hide all three errors, run the three checks in order,
      showing the error of each that fails, and submit when no group is left
      with the `error` class. The checks read values that nothing in between
      changes, so each sees the verdict of the values the form had. */
  function ValidateForm(f: Form): (r: Validation)
    ensures r.form.values == f.values
    ensures forall k :: Coherent(Group(r.form, k))
    ensures forall k :: Group(r.form, k).errorClass <==> Rule(FormValidationTable, k, f.values).Invalid?
    ensures forall k :: Rule(FormValidationTable, k, f.values).Invalid? ==>
      Group(r.form, k).message == Rule(FormValidationTable, k, f.values).message
    ensures forall k :: Rule(FormValidationTable, k, f.values).Valid? ==>
      Group(r.form, k).message == Group(f, k).message
    ensures r.submitted <==> AllValid(FormValidationTable, f.values)
  {
    var vs := Judge(FormValidationTable, f.values);
    var g := CheckAll(HideAll(f), vs);
    ResetCheckSpec(f, vs);
    JudgeSpec(FormValidationTable, f.values);
    Validation(g, !(g.name.errorClass || g.email.errorClass || g.confirm.errorClass))
  }

  /** Reset all three groups. */
  function HideAll(f: Form): Form {
    HideErrorIn(HideErrorIn(HideErrorIn(f, NameField), EmailField), ConfirmField)
  }

  /** After the reset every group is hidden and keeps its text. */
  lemma HideAllSpec(f: Form)
    ensures HideAll(f).values == f.values
    ensures forall k :: Group(HideAll(f), k) == HideError(Group(f, k))
  {
    var h1 := HideErrorIn(f, NameField);
    var h2 := HideErrorIn(h1, EmailField);
    var h := HideErrorIn(h2, ConfirmField);
    assert Group(h, NameField) == Group(h2, NameField) == Group(h1, NameField);
    assert Group(h, EmailField) == Group(h2, EmailField);
    forall k ensures Group(h, k) == HideError(Group(f, k)) {
      match k
      case NameField =>
      case EmailField =>
      case ConfirmField =>
    }
  }

  /** One `if` of `validateForm`: show the error of field `k` when its check
      fails, otherwise leave the group alone. */
  function Check(f: Form, k: FieldKind, verdict: Verdict): (r: Form)
    ensures r.values == f.values
    ensures forall j :: j != k ==> Group(r, j) == Group(f, j)
    ensures verdict.Invalid? ==> Group(r, k) == ShowError(Group(f, k), verdict.message)
    ensures verdict.Valid? ==> Group(r, k) == Group(f, k)
  {
    match verdict
    case Valid => f
    case Invalid(m) => ShowErrorIn(f, k, m)
  }

  /** The three checks, in declaration order. */
  function CheckAll(f: Form, vs: Verdicts): Form {
    Check(Check(Check(f, NameField, vs.name), EmailField, vs.email), ConfirmField, vs.confirm)
  }

  /** The three checks leave each group shown with its own failing verdict,
      or untouched. */
  lemma CheckAllSpec(f: Form, vs: Verdicts)
    ensures CheckAll(f, vs).values == f.values
    ensures forall k :: Pick(vs, k).Invalid? ==> Group(CheckAll(f, vs), k) == ShowError(Group(f, k), Pick(vs, k).message)
    ensures forall k :: Pick(vs, k).Valid? ==> Group(CheckAll(f, vs), k) == Group(f, k)
  {
    var c1 := Check(f, NameField, vs.name);
    var c2 := Check(c1, EmailField, vs.email);
    var g := Check(c2, ConfirmField, vs.confirm);
    assert Group(g, NameField) == Group(c2, NameField) == Group(c1, NameField);
    assert Group(g, EmailField) == Group(c2, EmailField);
    forall k
      ensures Pick(vs, k).Invalid? ==> Group(g, k) == ShowError(Group(f, k), Pick(vs, k).message)
      ensures Pick(vs, k).Valid? ==> Group(g, k) == Group(f, k)
    {
      match k
      case NameField =>
      case EmailField =>
      case ConfirmField =>
    }
  }

  /** What the reset and the check of one verdict leave in a group. */
  function Mark(v: GroupView, verdict: Verdict): (r: GroupView)
    ensures Coherent(r)
    ensures r.errorClass <==> verdict.Invalid?
    ensures verdict.Invalid? ==> r.message == verdict.message
    ensures verdict.Valid? ==> r.message == v.message
  {
    match verdict
    case Valid => HideError(v)
    case Invalid(m) => ShowError(HideError(v), m)
  }

  /** After the reset and the checks, a group is in error exactly when its
      own verdict fails, whatever it showed before, and no group is in error
      exactly when every verdict passes. */
  lemma ResetCheckSpec(f: Form, vs: Verdicts)
    ensures CheckAll(HideAll(f), vs).values == f.values
    ensures forall k :: Group(CheckAll(HideAll(f), vs), k) == Mark(Group(f, k), Pick(vs, k))
    ensures var g := CheckAll(HideAll(f), vs);
      !(g.name.errorClass || g.email.errorClass || g.confirm.errorClass) <==> AllPass(vs)
  {
    var h := HideAll(f);
    var g := CheckAll(h, vs);
    HideAllSpec(f);
    CheckAllSpec(h, vs);
    forall k ensures Group(g, k) == Mark(Group(f, k), Pick(vs, k)) {
      assert Group(h, k) == HideError(Group(f, k));
    }
    assert Group(g, NameField) == g.name && Group(g, EmailField) == g.email && Group(g, ConfirmField) == g.confirm;
  }

  /** The submit event: the native submission is always cancelled, and the
      form is submitted by the script exactly when all three checks pass. */
  datatype SubmitEvent = SubmitEvent(form: Form, defaultPrevented: bool, submitted: bool)

  /** The `submit` listener: `preventDefault`, then `validateForm`. */
  function OnSubmit(f: Form): (r: SubmitEvent)
    ensures r.defaultPrevented
    ensures r.form.values == f.values
    ensures r.form == ValidateForm(f).form
    ensures forall k :: Coherent(Group(r.form, k))
    ensures forall k :: Group(r.form, k).errorClass <==> Rule(FormValidationTable, k, f.values).Invalid?
    ensures forall k :: Rule(FormValidationTable, k, f.values).Invalid? ==>
      Group(r.form, k).message == Rule(FormValidationTable, k, f.values).message
    ensures forall k :: Rule(FormValidationTable, k, f.values).Valid? ==>
      Group(r.form, k).message == Group(f, k).message
    ensures r.submitted <==> !IsBlank(f.values.name) && !IsBlank(f.values.email) && f.values.confirm == f.values.email
  {
    var v := ValidateForm(f);
    AllValidIffEach(FormValidationTable, f.values);
    SubmitEvent(v.form, true, v.submitted)
  }

  /** After submit, what the page shows depends only on the current values. */
  lemma SubmitForgetsEarlierState(f: Form, g: Form)
    requires f.values == g.values
    ensures forall k :: SameVisible(Group(OnSubmit(f).form, k), Group(OnSubmit(g).form, k))
    ensures OnSubmit(f).submitted == OnSubmit(g).submitted
  {
  }

  /** The live name check and the submit-time name check agree on what the
      name group shows. */
  lemma NameInputAgreesWithSubmit(f: Form, value: string)
    ensures SameVisible(OnNameInput(f, value).name, OnSubmit(OnNameInput(f, value)).form.name)
  {
    var g := OnNameInput(f, value);
    TrimEmptyIffBlank(value);
    assert Group(OnSubmit(g).form, NameField) == OnSubmit(g).form.name;
  }

  /** Submitting twice with unchanged values gives the same page both times. */
  lemma SubmitIdempotent(f: Form)
    ensures OnSubmit(OnSubmit(f).form) == OnSubmit(f)
  {
    var vs := Judge(FormValidationTable, f.values);
    var g := OnSubmit(f).form;
    var h := OnSubmit(g).form;
    ResetCheckSpec(f, vs);
    ResetCheckSpec(g, vs);
    assert Group(h, NameField) == Group(g, NameField);
    assert Group(h, EmailField) == Group(g, EmailField);
    assert Group(h, ConfirmField) == Group(g, ConfirmField);
  }

  /** An edit of the email input leaves the confirm group as it was, even
      when the confirmation no longer matches; the next submit shows the
      mismatch and does not submit. */
  lemma EmailEditCaughtOnSubmit(f: Form, email: string)
    requires email != f.values.confirm
    ensures OnInput(f, EmailField, email).confirm == f.confirm
    ensures OnSubmit(OnInput(f, EmailField, email)).form.confirm.errorClass
    ensures !OnSubmit(OnInput(f, EmailField, email)).submitted
  {
    var g := OnInput(f, EmailField, email);
    assert g.values.email == email && g.values.confirm == f.values.confirm by {
      assert Get(g.values, EmailField) == email;
      assert Get(g.values, ConfirmField) == Get(f.values, ConfirmField);
    }
    assert Group(OnSubmit(g).form, ConfirmField) == OnSubmit(g).form.confirm;
  }

  /** What the page shows after an edit and a submit does not depend on
      what the edit's live check showed: only the edited values count. */
  lemma EditThenSubmitForgetsLiveCheck(f: Form, k: FieldKind, value: string)
    ensures forall j :: SameVisible(Group(OnSubmit(OnInput(f, k, value)).form, j),
                                    Group(OnSubmit(f.(values := SetValue(f.values, k, value))).form, j))
    ensures OnSubmit(OnInput(f, k, value)).submitted == OnSubmit(f.(values := SetValue(f.values, k, value))).submitted
  {
    SubmitForgetsEarlierState(OnInput(f, k, value), f.(values := SetValue(f.values, k, value)));
  }
}

=== FILE: login_page.dfy ===
/** The React login page: one form that either signs in or signs up
    depending on a mode flag, plus a password-reset link. Every call to the
    authentication backend is recorded in the run, and the backend's answer
    is a parameter of the handler. */
module LoginPage {
  import opened Optional
  import opened Backend

  /** The component state. */
  datatype State = State(email: string, password: string, loading: bool, error: string, isSignUp: bool)

  /** What the component starts with: empty fields, login mode. */
  const Initial := State("", "", false, "", false)

  const EmailRequired := "Please enter your email."
  const ResetSent := "Check your email for reset instructions."
  const CredentialsRequired := "Email and password are required."
  const DashboardRoute := "/dashboard"

  /** The three backend calls the page makes. */
  datatype AuthCall =
    | SignInWithPassword(email: string, password: string)
    | SignUp(email: string, password: string)
    | ResetPasswordForEmail(email: string)

  /** One run of a handler: the state rendered while the call is in flight
      (none when the handler returns before calling), the call made, the
      state once the handler is done, the route navigated to, and whether
      the signed-in user was written to local storage. */
  datatype Run = Run(
    awaiting: Option<State>, call: Option<AuthCall>, final: State,
    navigateTo: Option<string>, storesUser: bool)

  /** A guard that returns early: only the error changes, nothing is called. */
  function Refuse(s: State, message: string): (r: Run)
    ensures r.final == s.(error := message)
    ensures r.call.None? && r.awaiting.None? && r.navigateTo.None? && !r.storesUser
  {
    Run(None, None, s.(error := message), None, false)
  }

  /** `handleLogin`: no guard; the error is cleared before the call. */
  function HandleLogin(s: State, answer: Outcome): (r: Run)
    ensures r.call == Some(SignInWithPassword(s.email, s.password))
    ensures r.awaiting == Some(s.(loading := true, error := ""))
    ensures !r.final.loading
    ensures r.final.(loading := s.loading, error := s.error) == s
    ensures r.navigateTo.Some? <==> answer.Ok?
    ensures r.storesUser <==> answer.Ok?
    ensures answer.Ok? ==> r.navigateTo.value == DashboardRoute && r.final.error == ""
    ensures answer.Err? ==> r.final.error == answer.message
  {
    var pending := s.(loading := true, error := "");
    match answer
    case Ok => Run(Some(pending), Some(SignInWithPassword(s.email, s.password)), pending.(loading := false), Some(DashboardRoute), true)
    case Err(m) => Run(Some(pending), Some(SignInWithPassword(s.email, s.password)), pending.(loading := false, error := m), None, false)
  }

  /** `handleForgotPassword`: refuses an empty email; otherwise the earlier
      error stays on screen while the reset request is in flight. */
  function HandleForgotPassword(s: State, answer: Outcome): (r: Run)
    ensures r.call.Some? <==> s.email != ""
    ensures s.email == "" ==> r == Refuse(s, EmailRequired)
    ensures s.email != "" ==>
      && r.call == Some(ResetPasswordForEmail(s.email))
      && r.awaiting == Some(s.(loading := true))
      && !r.final.loading
      && r.final.error == (if answer.Ok? then ResetSent else answer.message)
    ensures r.final.(loading := s.loading, error := s.error) == s
    ensures r.navigateTo.None? && !r.storesUser
  {
    if s.email == "" then Refuse(s, EmailRequired)
    else
      var pending := s.(loading := true);
      var message := match answer case Ok => ResetSent case Err(m) => m;
      Run(Some(pending), Some(ResetPasswordForEmail(s.email)), pending.(loading := false, error := message), None, false)
  }

  /** `handleSignUp`: refuses an empty email or password; a successful
      sign-up clears both fields and switches to login mode but leaves the
      error as it was. */
  function HandleSignUp(s: State, answer: Outcome): (r: Run)
    ensures r.call.Some? <==> s.email != "" && s.password != ""
    ensures s.email == "" || s.password == "" ==> r == Refuse(s, CredentialsRequired)
    ensures s.email != "" && s.password != "" ==>
      && r.call == Some(SignUp(s.email, s.password))
      && r.awaiting == Some(s.(loading := true))
      && !r.final.loading
    ensures s.email != "" && s.password != "" && answer.Ok? ==>
      r.final == State("", "", false, s.error, false)
    ensures s.email != "" && s.password != "" && answer.Err? ==>
      r.final == s.(loading := false, error := answer.message)
    ensures r.navigateTo.None? && !r.storesUser
  {
    if s.email == "" || s.password == "" then Refuse(s, CredentialsRequired)
    else
      var pending := s.(loading := true);
      match answer
      case Ok => Run(Some(pending), Some(SignUp(s.email, s.password)), pending.(email := "", password := "", isSignUp := false, loading := false), None, false)
      case Err(m) => Run(Some(pending), Some(SignUp(s.email, s.password)), pending.(loading := false, error := m), None, false)
  }

  /** The form's `onSubmit`: the handler is chosen by the mode. */
  function Submit(s: State, answer: Outcome): (r: Run)
    ensures r.call.Some? && r.call.value.SignUp? ==> s.isSignUp
    ensures r.call.Some? && r.call.value.SignInWithPassword? ==> !s.isSignUp
    ensures !s.isSignUp ==> r.call.Some?
    ensures r.call.Some? ==> !r.call.value.ResetPasswordForEmail?
    ensures s.isSignUp ==> r == HandleSignUp(s, answer)
    ensures !s.isSignUp ==> r == HandleLogin(s, answer)
  {
    if s.isSignUp then HandleSignUp(s, answer) else HandleLogin(s, answer)
  }

  /** The "Sign up here" and "Login here" links. */
  function SetSignUpMode(s: State, on: bool): (r: State)
    ensures r.isSignUp == on
    ensures r.(isSignUp := s.isSignUp) == s
  {
    s.(isSignUp := on)
  }

  /** The page hides the form while loading, so handlers start idle; every
      handler then ends idle, whichever way it returns. */
  lemma HandlersEndIdle(s: State, answer: Outcome)
    requires !s.loading
    ensures !HandleLogin(s, answer).final.loading
    ensures !HandleForgotPassword(s, answer).final.loading
    ensures !HandleSignUp(s, answer).final.loading
    ensures !Submit(s, answer).final.loading
  {
  }

  /** The two guards check emptiness, not blankness: an ideographic space,
      which the browser does not strip from an email input, passes both. */
  lemma GuardsCheckEmptiness(s: State, answer: Outcome)
    requires s.email == "\U{3000}"
    ensures HandleForgotPassword(s, answer).call == Some(ResetPasswordForEmail("\U{3000}"))
    ensures s.password != "" ==> HandleSignUp(s, answer).call == Some(SignUp("\U{3000}", s.password))
  {
  }

  /** After a successful sign-up the page is back in login mode with empty
      fields, so the next submit signs in, with empty credentials unless the
      user types them again. */
  lemma SignUpThenSubmitSignsIn(s: State, a: Outcome, b: Outcome)
    requires s.isSignUp && s.email != "" && s.password != "" && a.Ok?
    ensures var t := Submit(s, a).final;
      !t.isSignUp && Submit(t, b).call == Some(SignInWithPassword("", ""))
  {
  }

  /** A message shown before a successful sign-up is still shown after it:
      unlike login, sign-up never clears the error. */
  lemma SignUpSuccessKeepsEarlierError(s: State, e: string)
    requires s.email != "" && s.password != ""
    ensures HandleSignUp(s.(error := e), Ok).final.error == e
    ensures HandleLogin(s.(error := e), Ok).final.error == ""
  {
  }

  /** Only a successful sign-in leaves the page, and it always goes to the
      dashboard. */
  lemma OnlySignInNavigates(s: State, answer: Outcome)
    ensures HandleForgotPassword(s, answer).navigateTo.None?
    ensures HandleSignUp(s, answer).navigateTo.None?
    ensures Submit(s, answer).navigateTo.Some? <==> !s.isSignUp && answer.Ok?
  {
  }

  /** From the page as it first renders, the reset link is refused for the
      empty email, and a submit signs in with empty credentials. */
  lemma FirstActionsFromInitial(answer: Outcome)
    ensures HandleForgotPassword(Initial, answer) == Refuse(Initial, EmailRequired)
    ensures HandleForgotPassword(Initial, answer).final.error == EmailRequired
    ensures Submit(Initial, answer).call == Some(SignInWithPassword("", ""))
  {
  }
}

=== FILE: optional.dfy ===
/** An optional value. */
module Optional {

  datatype Option<+T> = None | Some(value: T)
}

=== FILE: register_form.dfy ===
/** The React registration form: its submit handler checks that the two
    passwords agree, then asks the authentication backend to create the
    account with a full name built from first and last name. The backend's
    answer is a parameter of the handler. */
module RegisterForm {
  import opened Optional
  import opened Backend

  /** The component state. */
  datatype State = State(
    firstname: string, lastname: string, email: string,
    password: string, confirmPassword: string,
    loading: bool, error: string)

  /** What the component starts with. */
  const Initial := State("", "", "", "", "", false, "")

  const PasswordsDiffer := "Passwords don't match"
  const RegisterFailed := "There was an error registering your account."
  const LoginRoute := "/login"

  /** The sign-up request: credentials plus the `full_name` user metadata. */
  datatype SignUpRequest = SignUpRequest(email: string, password: string, fullName: string)

  /** One run of the handler: the state rendered while the request is in
      flight (none when the handler never awaits), the request sent, the
      state once the handler is done, and the route navigated to. */
  datatype Run = Run(awaiting: Option<State>, request: Option<SignUpRequest>, final: State, navigateTo: Option<string>)

  /** The input fields of `s`, which the handler never writes. */
  predicate SameInputs(s: State, t: State) {
    && s.firstname == t.firstname && s.lastname == t.lastname && s.email == t.email
    && s.password == t.password && s.confirmPassword == t.confirmPassword
  }

  /** The template `${firstname} ${lastname}`. */
  function FullName(first: string, last: string): (r: string)
    ensures |r| == |first| + 1 + |last|
    ensures r[..|first|] == first && r[|first|] == ' ' && r[|first| + 1..] == last
  {
    first + " " + last
  }

  /** Position of the first space of `s`, or `|s|` when there is none. */
  function FirstSpace(s: string): (i: nat)
    ensures i <= |s|
    ensures forall k :: 0 <= k < i ==> s[k] != ' '
    ensures i < |s| ==> s[i] == ' '
  {
    if s == [] || s[0] == ' ' then 0 else 1 + FirstSpace(s[1..])
  }

  /** Reads a full name back as first and last name, splitting at the first
      space. */
  function SplitFullName(s: string): (r: (string, string))
    ensures FirstSpace(s) < |s| ==> s == FullName(r.0, r.1)
  {
    var i := FirstSpace(s);
    if i < |s| then (s[..i], s[i + 1..]) else (s, "")
  }

  /** A first name without a space can be read back from the full name. */
  lemma {:induction false} SplitFullNameInverse(first: string, last: string)
    requires forall k :: 0 <= k < |first| ==> first[k] != ' '
    ensures SplitFullName(FullName(first, last)) == (first, last)
  {
    var s := FullName(first, last);
    FirstSpaceAt(s, |first|);
  }

  /** A space preceded by no other space is the first space. */
  lemma {:induction false} FirstSpaceAt(s: string, i: nat)
    requires i < |s| && s[i] == ' '
    requires forall k :: 0 <= k < i ==> s[k] != ' '
    ensures FirstSpace(s) == i
    decreases i
  {
    if i > 0 {
      var u := s[1..];
      forall k | 0 <= k < i - 1 ensures u[k] != ' ' {
        assert u[k] == s[k + 1];
      }
      FirstSpaceAt(u, i - 1);
    }
  }

  /** With a space inside the first name, two different name pairs give the
      same full name, so the metadata does not determine the two fields. */
  lemma FullNameNotInjective(a: string, b: string)
    requires a == "Mary Ann" && b == "Mary"
    ensures FullName(a, "Lee") == FullName(b, "Ann Lee")
  {
  }

  /** `handleRegister` with the backend answering `answer`. A rejected call
      and an answer carrying an error both arrive as `Err`. */
  function HandleRegister(s: State, answer: Outcome): (r: Run)
    ensures SameInputs(r.final, s)
    ensures !r.final.loading
    ensures s.password != s.confirmPassword ==>
      r.request.None? && r.awaiting.None? && r.final.error == PasswordsDiffer
    ensures s.password == s.confirmPassword ==>
      && r.request == Some(SignUpRequest(s.email, s.password, FullName(s.firstname, s.lastname)))
      && r.awaiting == Some(s.(loading := true, error := ""))
    ensures r.navigateTo.Some? <==> s.password == s.confirmPassword && answer.Ok?
    ensures r.navigateTo.Some? ==> r.navigateTo.value == LoginRoute && r.final.error == ""
    ensures s.password == s.confirmPassword && answer.Err? ==> r.final.error == RegisterFailed
  {
    if s.password != s.confirmPassword then
      Run(None, None, s.(loading := false, error := PasswordsDiffer), None)
    else
      var pending := s.(loading := true, error := "");
      var request := SignUpRequest(s.email, s.password, FullName(s.firstname, s.lastname));
      match answer
      case Ok => Run(Some(pending), Some(request), pending.(loading := false), Some(LoginRoute))
      case Err(_) => Run(Some(pending), Some(request), pending.(loading := false, error := RegisterFailed), None)
  }

  /** When the handler is done, an error is shown exactly when it did not
      navigate away. */
  lemma ErrorIffStays(s: State, answer: Outcome)
    ensures HandleRegister(s, answer).final.error != "" <==> HandleRegister(s, answer).navigateTo.None?
  {
  }

  /** Mismatching passwords never reach the backend, so its answer plays no
      part. */
  lemma MismatchIgnoresBackend(s: State, a: Outcome, b: Outcome)
    requires s.password != s.confirmPassword
    ensures HandleRegister(s, a) == HandleRegister(s, b)
  {
  }

  /** The handler starts from a clean error: what was shown before does not
      affect the run. */
  lemma EarlierErrorForgotten(s: State, e: string, answer: Outcome)
    ensures HandleRegister(s.(error := e), answer) == HandleRegister(s, answer)
  {
  }

  /** A failed registration can be retried as is: the second run sends the
      same request. */
  lemma RetrySendsSameRequest(s: State, a: Outcome, b: Outcome)
    ensures HandleRegister(HandleRegister(s, a).final, b).request == HandleRegister(s, b).request
  {
  }

  /** The untouched form has two equal (empty) passwords, so its submit
      reaches the backend with a full name of a single space. */
  lemma UntouchedFormSendsBlankName(answer: Outcome)
    ensures HandleRegister(Initial, answer).request == Some(SignUpRequest("", "", " "))
  {
    assert FullName("", "") == " ";
  }
}

=== FILE: rules.dfy ===
/** The per-field validation rules of the three-field registration form
    (name, email, confirm email). The two vanilla scripts carry different
    rules for the same fields, so each is a rule table of its own. */
module Rules {
  import opened Text
  import opened EmailPattern

  /** What one rule says of one field. */
  datatype Verdict = Valid | Invalid(message: string)

  /** The three fields of the registration form, in declaration order. */
  datatype FieldKind = NameField | EmailField | ConfirmField

  /** The current values of the three inputs. */
  datatype Values = Values(name: string, email: string, confirm: string)

  /** `ScriptTable`: the rules of the registration script (length, pattern,
      trimmed match). `FormValidationTable`: the rules of the form-group
      script (non-blank, non-blank, untrimmed match). */
  datatype RuleTable = ScriptTable | FormValidationTable

  const NameTooShort := "Name must be at least 3 characters long."
  const EmailMalformed := "Please enter a valid email address."
  const EmailsDifferReenter := "Emails do not match. Please re-enter."
  const NameMissing := "Please enter your name."
  const EmailMissing := "Please enter your email."
  const EmailsDiffer := "Emails do not match."

  function NameRule(t: RuleTable, name: string): (r: Verdict)
    ensures r.Invalid? ==> r.message == (if t == ScriptTable then NameTooShort else NameMissing)
    ensures IsBlank(name) ==> r.Invalid?
    ensures t == FormValidationTable ==> (r.Valid? <==> !IsBlank(name))
    ensures t == ScriptTable ==> (r.Valid? <==> Utf16Length(Trim(name)) >= 3)
    ensures t == ScriptTable && |Trim(name)| >= 3 ==> r.Valid?
    ensures t == ScriptTable && |Trim(name)| < 2 ==> r.Invalid?
  {
    TrimEmptyIffBlank(name);
    match t
    case ScriptTable => if Utf16Length(Trim(name)) < 3 then Invalid(NameTooShort) else Valid
    case FormValidationTable => if Trim(name) == "" then Invalid(NameMissing) else Valid
  }

  function EmailRule(t: RuleTable, email: string): (r: Verdict)
    ensures r.Invalid? ==> r.message == (if t == ScriptTable then EmailMalformed else EmailMissing)
    ensures IsBlank(email) ==> r.Invalid?
    ensures t == FormValidationTable ==> (r.Valid? <==> !IsBlank(email))
    ensures t == ScriptTable ==> (r.Valid? <==> Shape(Trim(email)))
  {
    TrimEmptyIffBlank(email);
    MatchesIffShape(Trim(email));
    match t
    case ScriptTable => if !Matches(Trim(email)) then Invalid(EmailMalformed) else Valid
    case FormValidationTable => if Trim(email) == "" then Invalid(EmailMissing) else Valid
  }

  /** The confirm rule reads the email value it is given at the time it runs. */
  function ConfirmRule(t: RuleTable, confirm: string, email: string): (r: Verdict)
    ensures r.Invalid? ==> r.message == (if t == ScriptTable then EmailsDifferReenter else EmailsDiffer)
    ensures confirm == email ==> r.Valid?
    ensures t == FormValidationTable ==> (r.Valid? <==> confirm == email)
    ensures t == ScriptTable ==> (r.Valid? <==> Trim(confirm) == Trim(email))
  {
    match t
    case ScriptTable => if Trim(confirm) != Trim(email) then Invalid(EmailsDifferReenter) else Valid
    case FormValidationTable => if confirm != email then Invalid(EmailsDiffer) else Valid
  }

  /** The values with the input of field `k` now holding `s`. */
  function SetValue(v: Values, k: FieldKind, s: string): (r: Values)
    ensures Get(r, k) == s
    ensures forall j :: j != k ==> Get(r, j) == Get(v, j)
  {
    match k
    case NameField => v.(name := s)
    case EmailField => v.(email := s)
    case ConfirmField => v.(confirm := s)
  }

  /** The value of the input of field `k`. */
  function Get(v: Values, k: FieldKind): string {
    match k
    case NameField => v.name
    case EmailField => v.email
    case ConfirmField => v.confirm
  }

  /** The table lookup: the rule of field `k` of table `t` on the current values. */
  function Rule(t: RuleTable, k: FieldKind, v: Values): Verdict {
    match k
    case NameField => NameRule(t, v.name)
    case EmailField => EmailRule(t, v.email)
    case ConfirmField => ConfirmRule(t, v.confirm, v.email)
  }

  /** The submission gate: every field of the form passes its rule. */
  predicate AllValid(t: RuleTable, v: Values) {
    forall k :: Rule(t, k, v).Valid?
  }

  /** The three verdicts of one table, one per field. */
  datatype Verdicts = Verdicts(name: Verdict, email: Verdict, confirm: Verdict)

  function Pick(vs: Verdicts, k: FieldKind): Verdict {
    match k
    case NameField => vs.name
    case EmailField => vs.email
    case ConfirmField => vs.confirm
  }

  /** Every verdict passes. */
  predicate AllPass(vs: Verdicts) {
    vs.name.Valid? && vs.email.Valid? && vs.confirm.Valid?
  }

  /** The verdicts of table `t` on the current values. */
  function Judge(t: RuleTable, v: Values): Verdicts {
    Verdicts(Rule(t, NameField, v), Rule(t, EmailField, v), Rule(t, ConfirmField, v))
  }

  /** `Judge` holds each field's own rule, and passes exactly when the
      submission gate is open. */
  lemma JudgeSpec(t: RuleTable, v: Values)
    ensures forall k :: Pick(Judge(t, v), k) == Rule(t, k, v)
    ensures AllPass(Judge(t, v)) <==> AllValid(t, v)
  {
    forall k ensures Pick(Judge(t, v), k) == Rule(t, k, v) {
      match k
      case NameField =>
      case EmailField =>
      case ConfirmField =>
    }
    AllValidIffEach(t, v);
  }

  /** The gate is the conjunction of the three verdicts, in either table. */
  lemma AllValidIffEach(t: RuleTable, v: Values)
    ensures AllValid(t, v) <==>
      Rule(t, NameField, v).Valid? && Rule(t, EmailField, v).Valid? && Rule(t, ConfirmField, v).Valid?
  {
    if Rule(t, NameField, v).Valid? && Rule(t, EmailField, v).Valid? && Rule(t, ConfirmField, v).Valid? {
      forall k ensures Rule(t, k, v).Valid? {
        match k
        case NameField =>
        case EmailField =>
        case ConfirmField =>
      }
    }
  }

  /** The script table is the stricter one on name and email: a value it
      accepts the form-group table accepts too. */
  lemma ScriptStricterOnNameAndEmail(v: Values)
    ensures Rule(ScriptTable, NameField, v).Valid? ==> Rule(FormValidationTable, NameField, v).Valid?
    ensures Rule(ScriptTable, EmailField, v).Valid? ==> Rule(FormValidationTable, EmailField, v).Valid?
  {
    TrimEmptyIffBlank(v.name);
    TrimEmptyIffBlank(v.email);
    MatchesIffShape(Trim(v.email));
  }

  /** A two-letter name and a bare word as email pass the form-group table
      but not the script table. */
  lemma OnlyFormValidationAccepts(v: Values)
    requires v == Values("Al", "al", "al")
    ensures !AllValid(ScriptTable, v) && AllValid(FormValidationTable, v)
  {
    ScriptRejectsShortName(v);
    FormValidationAcceptsWords(v);
  }

  /** A two-letter name fails the whole script table. */
  lemma ScriptRejectsShortName(v: Values)
    requires v.name == "Al"
    ensures !AllValid(ScriptTable, v)
  {
    TwoLetterNameTooShort(v.name);
    assert !Rule(ScriptTable, NameField, v).Valid?;
  }

  /** Two one-word values pass the form-group table. */
  lemma FormValidationAcceptsWords(v: Values)
    requires v == Values("Al", "al", "al")
    ensures AllValid(FormValidationTable, v)
  {
    assert v.name[0] == 'A' && v.email[0] == 'a';
    assert !IsWs('A') && !IsWs('a');
    NonBlankPasses(v);
  }

  /** Values whose name and email each hold a non-blank character, and whose
      confirmation is the email exactly, pass the form-group table. */
  lemma NonBlankPasses(v: Values)
    requires !IsBlank(v.name) && !IsBlank(v.email)
    requires v.confirm == v.email
    ensures AllValid(FormValidationTable, v)
  {
    AllValidIffEach(FormValidationTable, v);
  }

  /** A confirm value that is the email with blanks put in front passes the
      script table (when name and email do) but never the form-group table. */
  lemma PaddedConfirmSplitsTables(v: Values, p: string)
    requires IsBlank(p) && p != []
    requires v.confirm == p + v.email
    requires Rule(ScriptTable, NameField, v).Valid? && Rule(ScriptTable, EmailField, v).Valid?
    ensures AllValid(ScriptTable, v) && !AllValid(FormValidationTable, v)
  {
    TrimBlankPrefix(p, v.email);
    AllValidIffEach(ScriptTable, v);
    assert |v.confirm| != |v.email|;
    assert Rule(FormValidationTable, ConfirmField, v).Invalid?;
  }

  /** An address the pattern matches as it stands passes the script's
      email rule: it has no white space to trim. */
  lemma MatchedAddressValid(x: string)
    requires Matches(x)
    ensures EmailRule(ScriptTable, x).Valid?
  {
    MatchHasOneAt(x);
    TrimTight(x);
    MatchesIffShape(x);
  }

  /** A plain address passes the script's email rule. */
  lemma PlainAddressValid(email: string)
    requires email == "a@b.co"
    ensures EmailRule(ScriptTable, email).Valid?
  {
    AcceptsPlain();
    MatchedAddressValid(email);
  }

  /** A name of fewer than three characters, none of them outside the Basic
      Multilingual Plane and none blank at either end, is too short. */
  lemma ShortTightNameTooShort(name: string)
    requires |name| < 3
    requires name == [] || (!IsWs(name[0]) && !IsWs(name[|name| - 1]))
    requires forall i :: 0 <= i < |name| ==> name[i] as int <= 0xFFFF
    ensures NameRule(ScriptTable, name).Invalid?
  {
    TightLength(name);
  }

  /** For a value without blank ends, all in the Basic Multilingual Plane,
      the script's length of its trim is its number of characters. */
  lemma TightLength(name: string)
    requires name == [] || (!IsWs(name[0]) && !IsWs(name[|name| - 1]))
    requires forall i :: 0 <= i < |name| ==> name[i] as int <= 0xFFFF
    ensures Utf16Length(Trim(name)) == |name|
  {
    TrimTight(name);
  }

  /** Two letters are too short a name for the script table. */
  lemma TwoLetterNameTooShort(name: string)
    requires name == "Al"
    ensures NameRule(ScriptTable, name).Invalid?
  {
    assert |name| == 2 && !IsWs(name[0]) && !IsWs(name[1]);
    assert name[0] as int <= 0xFFFF && name[1] as int <= 0xFFFF;
    ShortTightNameTooShort(name);
  }

  /** Five letters are long enough. */
  lemma FiveLetterNameLongEnough(name: string)
    requires name == "Alice"
    ensures NameRule(ScriptTable, name).Valid?
  {
    TrimTight(name);
  }

  /** The script table fails a two-letter name and nothing else. */
  lemma ShortNameVerdicts(v: Values)
    requires v == Values("Al", "a@b.co", "a@b.co")
    ensures Rule(ScriptTable, NameField, v).Invalid?
    ensures Rule(ScriptTable, EmailField, v).Valid? && Rule(ScriptTable, ConfirmField, v).Valid?
  {
    TwoLetterNameTooShort(v.name);
    PlainAddressValid(v.email);
  }

  /** The script table passes a five-letter name with a plain address. */
  lemma LongNameVerdicts(v: Values)
    requires v == Values("Alice", "a@b.co", "a@b.co")
    ensures Rule(ScriptTable, NameField, v).Valid?
    ensures Rule(ScriptTable, EmailField, v).Valid? && Rule(ScriptTable, ConfirmField, v).Valid?
  {
    FiveLetterNameLongEnough(v.name);
    PlainAddressValid(v.email);
  }

  /** Surrounding blanks do not matter to the script's email rule: an
      address the pattern matches passes however it is padded. */
  lemma PaddedEmailAccepted(p: string, x: string, q: string)
    requires IsBlank(p) && IsBlank(q) && Matches(x)
    ensures EmailRule(ScriptTable, p + x + q).Valid?
  {
    MatchHasOneAt(x);
    TrimPadded(p, x, q);
    MatchesIffShape(x);
  }

  /** JavaScript counts UTF-16 code units, so two characters outside the
      Basic Multilingual Plane already make a long-enough name. */
  lemma TwoAstralCharactersAreLongEnough(name: string)
    requires name == "\U{1F600}\U{1F600}"
    ensures NameRule(ScriptTable, name).Valid?
  {
    var c := name[0];
    assert c == name[1] && c as int > 0xFFFF && !IsWs(c);
    TrimTight(name);
    var t := name[1..];
    assert t == [c] && t[1..] == [];
    assert Utf16Length(t) == 2 + Utf16Length(t[1..]) == 2;
    assert Utf16Length(name) == 2 + Utf16Length(t) == 4;
  }
}

=== FILE: script_js.dfy ===
/** The registration script: real-time validation of the input that fired,
    keyed on its `name` attribute, and whole-form validation on submit that
    cancels the native submission when a field is in error. */
module ScriptJs {
  import opened Optional
  import opened Text
  import opened Rules

  /** What the page shows for one input: the text and visibility of its error
      element, and the `error` class and `aria-invalid` attribute of the
      input itself. */
  datatype FieldView = FieldView(message: string, shown: bool, errorClass: bool, ariaInvalid: string)

  /** Error styling, error visibility and `aria-invalid` all say the same. */
  predicate Coherent(v: FieldView) {
    && v.shown == v.errorClass
    && v.ariaInvalid == (if v.errorClass then "true" else "false")
  }

  /** `showError`: sets the text, shows it, marks the input invalid. */
  function ShowError(v: FieldView, message: string): (r: FieldView)
    ensures r.errorClass && r.message == message && Coherent(r)
  {
    FieldView(message, true, true, "true")
  }

  /** `hideError`: hides the text without clearing it, marks the input valid. */
  function HideError(v: FieldView): (r: FieldView)
    ensures !r.errorClass && r.message == v.message && Coherent(r)
  {
    v.(shown := false, errorClass := false, ariaInvalid := "false")
  }

  /** The visible state of an error element: hidden text is not seen. */
  predicate SameVisible(a: FieldView, b: FieldView) {
    && a.shown == b.shown && a.errorClass == b.errorClass && a.ariaInvalid == b.ariaInvalid
    && (a.shown ==> a.message == b.message)
  }

  /** The three inputs' values and what the page shows for each. */
  datatype Form = Form(values: Values, name: FieldView, email: FieldView, confirm: FieldView)

  function View(f: Form, k: FieldKind): FieldView {
    match k
    case NameField => f.name
    case EmailField => f.email
    case ConfirmField => f.confirm
  }

  function WithView(f: Form, k: FieldKind, v: FieldView): (r: Form)
    ensures r.values == f.values && View(r, k) == v
    ensures forall j :: j != k ==> View(r, j) == View(f, j)
  {
    match k
    case NameField => f.(name := v)
    case EmailField => f.(email := v)
    case ConfirmField => f.(confirm := v)
  }

  /** What a validator does to its field once its rule has spoken: show the
      message of an invalid verdict, hide the error of a valid one (keeping
      the old, now hidden, text). */
  function Render(v: FieldView, verdict: Verdict): (r: FieldView)
    ensures Coherent(r)
    ensures r.errorClass <==> verdict.Invalid?
    ensures verdict.Invalid? ==> r.message == verdict.message
    ensures verdict.Valid? ==> r.message == v.message
  {
    match verdict
    case Valid => HideError(v)
    case Invalid(m) => ShowError(v, m)
  }

  /** `verdict` rendered on field `k`, and nothing else touched. */
  function Apply(f: Form, k: FieldKind, verdict: Verdict): (r: Form)
    ensures r.values == f.values
    ensures View(r, k) == Render(View(f, k), verdict)
    ensures forall j :: j != k ==> View(r, j) == View(f, j)
  {
    WithView(f, k, Render(View(f, k), verdict))
  }

  /** `validateName`, `validateEmail` and `validateConfirmEmail`: the rule of
      field `k`, read on the current values (the confirm rule reads the
      current email), shows or hides that field's error and touches nothing
      else. */
  function ValidateOne(f: Form, k: FieldKind): (r: Form)
    ensures r.values == f.values
    ensures forall j :: j != k ==> View(r, j) == View(f, j)
    ensures Coherent(View(r, k))
    ensures View(r, k).errorClass <==> Rule(ScriptTable, k, f.values).Invalid?
    ensures Rule(ScriptTable, k, f.values).Invalid? ==> View(r, k).message == Rule(ScriptTable, k, f.values).message
    ensures Rule(ScriptTable, k, f.values).Valid? ==> View(r, k).message == View(f, k).message
  {
    Apply(f, k, Rule(ScriptTable, k, f.values))
  }

  /** The `switch` of `validateField`: only three `name` attributes select a
      rule. A missing attribute behaves like any other unlisted name. */
  function FieldOfName(attr: string): (r: Option<FieldKind>)
    ensures r == Some(NameField) <==> attr == "name"
    ensures r == Some(EmailField) <==> attr == "email"
    ensures r == Some(ConfirmField) <==> attr == "confirm-email"
  {
    if attr == "name" then Some(NameField)
    else if attr == "email" then Some(EmailField)
    else if attr == "confirm-email" then Some(ConfirmField)
    else None
  }

  /** `validateField`: validate the input whose `name` attribute is `attr`. */
  function ValidateField(f: Form, attr: string): (r: Form)
    ensures r.values == f.values
    ensures FieldOfName(attr).None? ==> r == f
    ensures forall j :: FieldOfName(attr) != Some(j) ==> View(r, j) == View(f, j)
    ensures forall k :: FieldOfName(attr) == Some(k) ==> r == ValidateOne(f, k)
    ensures forall k :: FieldOfName(attr) == Some(k) ==>
      && Coherent(View(r, k))
      && (View(r, k).errorClass <==> Rule(ScriptTable, k, f.values).Invalid?)
      && (Rule(ScriptTable, k, f.values).Invalid? ==> View(r, k).message == Rule(ScriptTable, k, f.values).message)
      && (Rule(ScriptTable, k, f.values).Valid? ==> View(r, k).message == View(f, k).message)
  {
    match FieldOfName(attr)
    case None => f
    case Some(k) => ValidateOne(f, k)
  }

  /** An `input` event: the input named `attr` now holds `value`, and
      `validateField` runs. Inputs outside the three are not part of the
      form state, so an edit of one changes nothing here. */
  function OnInput(f: Form, attr: string, value: string): (r: Form)
    ensures FieldOfName(attr).None? ==> r == f
    ensures forall k :: FieldOfName(attr) == Some(k) ==>
      && r.values == SetValue(f.values, k, value)
      && (View(r, k).errorClass <==> Rule(ScriptTable, k, r.values).Invalid?)
      && Coherent(View(r, k))
      && (Rule(ScriptTable, k, r.values).Invalid? ==> View(r, k).message == Rule(ScriptTable, k, r.values).message)
      && (Rule(ScriptTable, k, r.values).Valid? ==> View(r, k).message == View(f, k).message)
      && (forall j :: j != k ==> View(r, j) == View(f, j))
  {
    match FieldOfName(attr)
    case None => f
    case Some(k) => ValidateField(f.(values := SetValue(f.values, k, value)), attr)
  }

  /** The form after `validateForm`, and whether it called `preventDefault`. */
  datatype Submission = Submission(form: Form, defaultPrevented: bool)

  /** `validateForm`: validate name, email and confirm in that order, then
      cancel the submission exactly when one of the inputs carries the
      `error` class. */
  function ValidateForm(f: Form): (r: Submission)
    ensures r.form.values == f.values
    ensures forall k :: Coherent(View(r.form, k))
    ensures forall k :: View(r.form, k).errorClass <==> Rule(ScriptTable, k, f.values).Invalid?
    ensures forall k :: Rule(ScriptTable, k, f.values).Invalid? ==>
      View(r.form, k).message == Rule(ScriptTable, k, f.values).message
    ensures forall k :: Rule(ScriptTable, k, f.values).Valid? ==> View(r.form, k).message == View(f, k).message
    ensures r.defaultPrevented <==> exists k :: View(r.form, k).errorClass
    ensures r.defaultPrevented <==> !AllValid(ScriptTable, f.values)
  {
    var g := ValidateAll(f);
    var vs := Judge(ScriptTable, f.values);
    ValidateAllIsApplyAll(f);
    ApplyAllSpec(f, vs);
    JudgeSpec(ScriptTable, f.values);
    Submission(g, g.name.errorClass || g.email.errorClass || g.confirm.errorClass)
  }

  /** The three validators of `validateForm`, in declaration order. */
  function ValidateAll(f: Form): Form {
    ValidateOne(ValidateOne(ValidateOne(f, NameField), EmailField), ConfirmField)
  }

  /** Three verdicts rendered on their fields, in declaration order. */
  function ApplyAll(f: Form, vs: Verdicts): Form {
    Apply(Apply(Apply(f, NameField, vs.name), EmailField, vs.email), ConfirmField, vs.confirm)
  }

  /** No validator changes a value, so the three in a row render the
      verdicts of the values the form had before. */
  lemma ValidateAllIsApplyAll(f: Form)
    ensures ValidateAll(f) == ApplyAll(f, Judge(ScriptTable, f.values))
  {
    var vs := Judge(ScriptTable, f.values);
    var g1 := Apply(f, NameField, vs.name);
    assert ValidateOne(f, NameField) == g1;
    var g2 := Apply(g1, EmailField, vs.email);
    assert ValidateOne(g1, EmailField) == g2;
    assert ValidateOne(g2, ConfirmField) == Apply(g2, ConfirmField, vs.confirm);
  }

  /** After the three renderings every field shows its own verdict, and
      some field is in error exactly when some verdict fails. */
  lemma ApplyAllSpec(f: Form, vs: Verdicts)
    ensures ApplyAll(f, vs).values == f.values
    ensures forall k :: View(ApplyAll(f, vs), k) == Render(View(f, k), Pick(vs, k))
    ensures var g := ApplyAll(f, vs);
      && ((g.name.errorClass || g.email.errorClass || g.confirm.errorClass) <==> !AllPass(vs))
      && ((g.name.errorClass || g.email.errorClass || g.confirm.errorClass) <==> exists k :: View(g, k).errorClass)
  {
    var g1 := Apply(f, NameField, vs.name);
    var g2 := Apply(g1, EmailField, vs.email);
    var g := Apply(g2, ConfirmField, vs.confirm);
    forall k ensures View(g, k) == Render(View(f, k), Pick(vs, k)) {
      match k
      case NameField =>
        assert View(g, k) == View(g2, k) == View(g1, k);
      case EmailField =>
        assert View(g, k) == View(g2, k);
      case ConfirmField =>
    }
    assert View(g, NameField) == g.name && View(g, EmailField) == g.email && View(g, ConfirmField) == g.confirm;
  }

  /** Rendering the same verdicts a second time changes nothing. */
  lemma ApplyAllIdempotent(f: Form, vs: Verdicts)
    ensures ApplyAll(ApplyAll(f, vs), vs) == ApplyAll(f, vs)
  {
    var g := ApplyAll(f, vs);
    var h := ApplyAll(g, vs);
    ApplyAllSpec(f, vs);
    ApplyAllSpec(g, vs);
    assert View(h, NameField) == View(g, NameField);
    assert View(h, EmailField) == View(g, EmailField);
    assert View(h, ConfirmField) == View(g, ConfirmField);
  }

  /** Submitting twice with unchanged values gives the same page both times. */
  lemma SubmitIdempotent(f: Form)
    ensures ValidateForm(ValidateForm(f).form) == ValidateForm(f)
  {
    var g := ValidateForm(f).form;
    ValidateAllIsApplyAll(f);
    ValidateAllIsApplyAll(g);
    ApplyAllIdempotent(f, Judge(ScriptTable, f.values));
  }

  /** After submit, what the page shows depends only on the current values:
      earlier errors, stale or not, leave no visible trace. */
  lemma SubmitForgetsEarlierState(f: Form, g: Form)
    requires f.values == g.values
    ensures forall k :: SameVisible(View(ValidateForm(f).form, k), View(ValidateForm(g).form, k))
    ensures ValidateForm(f).defaultPrevented == ValidateForm(g).defaultPrevented
  {
  }

  /** The order in which two fields are validated does not matter. */
  lemma ValidationOrderIrrelevant(f: Form, a: FieldKind, b: FieldKind)
    ensures ValidateOne(ValidateOne(f, a), b) == ValidateOne(ValidateOne(f, b), a)
  {
  }

  /** An edit of the email input revalidates the email alone. */
  lemma EmailEditLeavesConfirm(f: Form, email: string)
    ensures OnInput(f, "email", email).values == f.values.(email := email)
    ensures OnInput(f, "email", email).confirm == f.confirm
  {
    assert FieldOfName("email") == Some(EmailField);
    var v := SetValue(f.values, EmailField, email);
    assert v == f.values.(email := email);
    assert OnInput(f, "email", email) == ValidateOne(f.(values := v), EmailField);
  }

  /** Editing the email does not revalidate the confirm field, whose verdict
      can go stale; the next submit catches the mismatch. */
  lemma StaleConfirmCaughtOnSubmit(f: Form, email: string)
    requires !f.confirm.errorClass
    requires Trim(email) != Trim(f.values.confirm)
    ensures !OnInput(f, "email", email).confirm.errorClass
    ensures ValidateForm(OnInput(f, "email", email)).form.confirm.errorClass
    ensures ValidateForm(OnInput(f, "email", email)).defaultPrevented
  {
    ConfirmMismatch(f.values, email);
    StaleEditMarked(f, email);
  }

  /** The confirm rule fails once the email no longer trims to the
      confirmation. */
  lemma ConfirmMismatch(v: Values, email: string)
    requires Trim(email) != Trim(v.confirm)
    ensures Rule(ScriptTable, ConfirmField, v.(email := email)).Invalid?
  {
  }

  /** An email edit that breaks the confirm rule leaves the confirm input as
      it was, and the next submit marks it and is cancelled. */
  lemma StaleEditMarked(f: Form, email: string)
    requires Rule(ScriptTable, ConfirmField, f.values.(email := email)).Invalid?
    ensures OnInput(f, "email", email).confirm == f.confirm
    ensures ValidateForm(OnInput(f, "email", email)).form.confirm.errorClass
    ensures ValidateForm(OnInput(f, "email", email)).defaultPrevented
  {
    EmailEditLeavesConfirm(f, email);
    SubmitMarksFailing(OnInput(f, "email", email), ConfirmField);
  }

  /** A field whose rule fails is marked on submit, and the submission is
      cancelled. */
  lemma SubmitMarksFailing(f: Form, k: FieldKind)
    requires Rule(ScriptTable, k, f.values).Invalid?
    ensures View(ValidateForm(f).form, k).errorClass
    ensures ValidateForm(f).defaultPrevented
  {
  }

  /** A two-letter name is the only error the submit shows and it blocks
      the submission. */
  lemma ShortNameBlocksAlone(f: Form)
    requires f.values == Values("Al", "a@b.co", "a@b.co")
    ensures ValidateForm(f).defaultPrevented
    ensures var g := ValidateForm(f).form; g.name.errorClass && !g.email.errorClass && !g.confirm.errorClass
  {
    ShortNameVerdicts(f.values);
    var g := ValidateForm(f).form;
    assert View(g, NameField) == g.name && View(g, EmailField) == g.email && View(g, ConfirmField) == g.confirm;
  }

  /** With a five-letter name the same values submit and no error shows. */
  lemma LongNameSubmits(f: Form)
    requires f.values == Values("Alice", "a@b.co", "a@b.co")
    ensures !ValidateForm(f).defaultPrevented
    ensures var g := ValidateForm(f).form; !g.name.errorClass && !g.email.errorClass && !g.confirm.errorClass
  {
    LongNameVerdicts(f.values);
    var g := ValidateForm(f).form;
    assert View(g, NameField) == g.name && View(g, EmailField) == g.email && View(g, ConfirmField) == g.confirm;
  }
}

=== FILE: text.dfy ===
/** JavaScript string primitives the validators rely on: the white-space class,
    `String.prototype.trim`, and `length` counted in UTF-16 code units.
    A string is a sequence of Unicode code points. */
module Text {

  /** ECMAScript white space: the WhiteSpace and LineTerminator code points.
      `trim` strips exactly these, and the regular-expression escape `\s`
      matches exactly these. */
  predicate IsWs(c: char) {
    || c == '\t' || c == '\n' || c == '\U{B}' || c == '\U{C}' || c == '\r'
    || c == ' ' || c == '\U{A0}' || c == '\U{1680}'
    || ('\U{2000}' <= c <= '\U{200A}')
    || c == '\U{2028}' || c == '\U{2029}' || c == '\U{202F}' || c == '\U{205F}'
    || c == '\U{3000}' || c == '\U{FEFF}'
  }

  /** Every character of `s` is white space (the empty string included). */
  predicate IsBlank(s: string) {
    forall i :: 0 <= i < |s| ==> IsWs(s[i])
  }

  /** `s` with its leading white space removed. */
  function TrimStart(s: string): (r: string)
    ensures |r| <= |s| && r == s[|s| - |r|..]
    ensures IsBlank(s[..|s| - |r|])
    ensures r == [] || !IsWs(r[0])
  {
    if |s| > 0 && IsWs(s[0]) then
      var r := TrimStart(s[1..]);
      DropOneMore(s, r);
      r
    else s
  }

  /** A blank-prefix split of `s[1..]` is one of `s` when `s[0]` is blank. */
  lemma DropOneMore(s: string, r: string)
    requires |s| > 0 && IsWs(s[0])
    requires |r| <= |s| - 1 && r == s[1..][|s| - 1 - |r|..]
    requires IsBlank(s[1..][..|s| - 1 - |r|])
    ensures r == s[|s| - |r|..]
    ensures IsBlank(s[..|s| - |r|])
  {
    var u := s[1..];
    var n := |u| - |r|;
    assert s[..|s| - |r|] == [s[0]] + u[..n];
    BlankConcat([s[0]], u[..n]);
  }

  /** `s` with its trailing white space removed. */
  function TrimEnd(s: string): (r: string)
    ensures |r| <= |s| && r == s[..|r|]
    ensures IsBlank(s[|r|..])
    ensures r == [] || !IsWs(r[|r| - 1])
  {
    if |s| > 0 && IsWs(s[|s| - 1]) then
      var r := TrimEnd(s[..|s| - 1]);
      KeepOneLess(s, r);
      r
    else s
  }

  /** A blank-suffix split of `s` without its last character is one of `s`
      when that character is blank. */
  lemma KeepOneLess(s: string, r: string)
    requires |s| > 0 && IsWs(s[|s| - 1])
    requires |r| <= |s| - 1 && r == s[..|s| - 1][..|r|]
    requires IsBlank(s[..|s| - 1][|r|..])
    ensures r == s[..|r|]
    ensures IsBlank(s[|r|..])
  {
    var u := s[..|s| - 1];
    assert s[|r|..] == u[|r|..] + [s[|s| - 1]];
    BlankConcat(u[|r|..], [s[|s| - 1]]);
  }

  /** `r` is what is left of `s` once a blank prefix of length `i` and a blank
      suffix are cut off, and `r` itself neither starts nor ends with white space. */
  ghost predicate TrimAt(s: string, i: int, r: string) {
    && 0 <= i <= |s| - |r| && r == s[i..i + |r|]
    && IsBlank(s[..i]) && IsBlank(s[i + |r|..])
    && (r == [] || (!IsWs(r[0]) && !IsWs(r[|r| - 1])))
  }

  /** `r` is `s` with the white space at both ends cut off. */
  ghost predicate IsTrimOf(s: string, r: string) {
    exists i :: TrimAt(s, i, r)
  }

  /** `String.prototype.trim`. */
  function Trim(s: string): (r: string)
    ensures IsTrimOf(s, r)
  {
    var t := TrimStart(s);
    var r := TrimEnd(t);
    StartThenEnd(s, t, r);
    r
  }

  /** Cutting the blank prefix and then the blank suffix leaves a trim. */
  lemma StartThenEnd(s: string, t: string, r: string)
    requires |t| <= |s| && t == s[|s| - |t|..] && IsBlank(s[..|s| - |t|]) && (t == [] || !IsWs(t[0]))
    requires |r| <= |t| && r == t[..|r|] && IsBlank(t[|r|..]) && (r == [] || !IsWs(r[|r| - 1]))
    ensures TrimAt(s, |s| - |t|, r)
  {
    var i := |s| - |t|;
    assert s[i..i + |r|] == r;
    assert s[i + |r|..] == t[|r|..];
    assert r != [] ==> r[0] == t[0];
  }

  /** A non-blank character preceded only by white space is where `TrimStart`
      begins. */
  lemma {:induction false} FirstNonWs(s: string, i: nat)
    requires i < |s| && IsBlank(s[..i]) && !IsWs(s[i])
    ensures i == |s| - |TrimStart(s)|
    decreases i
  {
    if i > 0 {
      assert s[..i][0] == s[0];
      var u := s[1..];
      var p := u[..i - 1];
      assert IsBlank(p) by {
        forall k | 0 <= k < |p| ensures IsWs(p[k]) {
          assert p[k] == s[..i][k + 1];
        }
      }
      FirstNonWs(u, i - 1);
    }
  }

  /** A non-blank character followed only by white space is where `TrimEnd`
      stops. */
  lemma {:induction false} LastNonWs(s: string, e: nat)
    requires 0 < e <= |s| && IsBlank(s[e..]) && !IsWs(s[e - 1])
    ensures e == |TrimEnd(s)|
    decreases |s| - e
  {
    if e < |s| {
      var u := s[..|s| - 1];
      assert s[e..][|s| - 1 - e] == s[|s| - 1];
      assert IsBlank(u[e..]) by {
        forall k | 0 <= k < |u| - e ensures IsWs(u[e..][k]) {
          assert u[e..][k] == s[e..][k];
        }
      }
      LastNonWs(u, e);
    }
  }

  /** A blank string trims to nothing from the left. */
  lemma {:induction false} BlankTrimStart(s: string)
    requires IsBlank(s)
    ensures TrimStart(s) == []
    decreases |s|
  {
    if s != [] {
      assert IsBlank(s[1..]) by {
        forall k | 0 <= k < |s| - 1 ensures IsWs(s[1..][k]) {
          assert s[1..][k] == s[k + 1];
        }
      }
      BlankTrimStart(s[1..]);
    }
  }

  /** With a blank prefix of length `i` and a blank suffix after `i + n`, an
      empty middle makes the whole string blank. */
  lemma BlankAround(s: string, i: nat, n: nat)
    requires i + n <= |s| && IsBlank(s[..i]) && IsBlank(s[i + n..])
    ensures n == 0 ==> IsBlank(s)
  {
    if n == 0 {
      forall k | 0 <= k < |s| ensures IsWs(s[k]) {
        if k < i { assert s[..i][k] == s[k]; } else { assert s[i..][k - i] == s[k]; }
      }
    }
  }

  /** Any string that `IsTrimOf` describes is the one `Trim` returns, so the
      description is unique. */
  lemma {:induction false} TrimOfIsTrim(s: string, r: string)
    requires IsTrimOf(s, r)
    ensures r == Trim(s)
  {
    var i :| TrimAt(s, i, r);
    if r == [] {
      BlankAround(s, i, 0);
      BlankTrimStart(s);
    } else {
      assert s[i] == r[0];
      FirstNonWs(s, i);
      var t := TrimStart(s);
      assert t == s[i..];
      assert t[..|r|] == r;
      assert t[|r|..] == s[i + |r|..];
      assert t[|r| - 1] == r[|r| - 1];
      LastNonWs(t, |r|);
    }
  }

  /** Trimming is idempotent. */
  lemma TrimIdempotent(s: string)
    ensures Trim(Trim(s)) == Trim(s)
  {
    var t := Trim(s);
    assert t[0..0 + |t|] == t && t[..0] == [] && t[0 + |t|..] == [];
    assert TrimAt(t, 0, t);
    TrimOfIsTrim(t, t);
  }

  /** The trim of `s` is empty exactly when `s` is blank. */
  lemma TrimEmptyIffBlank(s: string)
    ensures Trim(s) == [] <==> IsBlank(s)
  {
    var r := Trim(s);
    var i :| TrimAt(s, i, r);
    TrimAtEmptyIffBlank(s, i, r);
  }

  lemma TrimAtEmptyIffBlank(s: string, i: int, r: string)
    requires TrimAt(s, i, r)
    ensures r == [] <==> IsBlank(s)
  {
    if r == [] {
      BlankAround(s, i, 0);
    } else {
      assert s[i] == r[0];
    }
  }

  /** Trimming a value padded with blanks on both sides gives back the value,
      provided it has no white space at either end. */
  lemma TrimPadded(p: string, x: string, q: string)
    requires IsBlank(p) && IsBlank(q)
    requires x == [] || (!IsWs(x[0]) && !IsWs(x[|x| - 1]))
    ensures Trim(p + x + q) == x
  {
    PaddedTrimAt(p, x, q);
    TrimOfIsTrim(p + x + q, x);
  }

  lemma PaddedTrimAt(p: string, x: string, q: string)
    requires IsBlank(p) && IsBlank(q)
    requires x == [] || (!IsWs(x[0]) && !IsWs(x[|x| - 1]))
    ensures TrimAt(p + x + q, |p|, x)
  {
    var s := p + x + q;
    var i := |p|;
    assert s[i..i + |x|] == x;
    assert s[..i] == p;
    assert s[i + |x|..] == q;
  }

  /** A value with no white space at either end is its own trim. */
  lemma TrimTight(s: string)
    requires s == [] || (!IsWs(s[0]) && !IsWs(s[|s| - 1]))
    ensures Trim(s) == s
  {
    assert TrimStart(s) == s;
  }

  /** Blanks in front of a value do not change its trim. */
  lemma TrimBlankPrefix(p: string, s: string)
    requires IsBlank(p)
    ensures Trim(p + s) == Trim(s)
  {
    var r := Trim(s);
    var i :| TrimAt(s, i, r);
    TrimAtShift(p, s, i, r);
    TrimOfIsTrim(p + s, r);
  }

  /** A trim position of `s` moves by `|p|` when blanks `p` are put in front. */
  lemma TrimAtShift(p: string, s: string, i: int, r: string)
    requires IsBlank(p) && TrimAt(s, i, r)
    ensures TrimAt(p + s, |p| + i, r)
  {
    ShiftSlices(p, s, i, i + |r|);
    BlankConcat(p, s[..i]);
  }

  /** Slices of `p + s` past `p` are slices of `s`. */
  lemma ShiftSlices(p: string, s: string, a: nat, b: nat)
    requires a <= b <= |s|
    ensures (p + s)[|p| + a..|p| + b] == s[a..b]
    ensures (p + s)[|p| + b..] == s[b..]
    ensures (p + s)[..|p| + a] == p + s[..a]
  {
  }

  /** Two blank strings make a blank string. */
  lemma BlankConcat(a: string, b: string)
    requires IsBlank(a) && IsBlank(b)
    ensures IsBlank(a + b)
  {
    forall k | 0 <= k < |a + b| ensures IsWs((a + b)[k]) {
      if k >= |a| { assert (a + b)[k] == b[k - |a|]; }
    }
  }

  /** Number of UTF-16 code units of `s`, which is what JavaScript's `length`
      counts: a code point above U+FFFF is stored as a surrogate pair. */
  function Utf16Length(s: string): (n: nat)
    ensures |s| <= n <= 2 * |s|
    ensures n == |s| <==> forall i :: 0 <= i < |s| ==> s[i] as int <= 0xFFFF
  {
    if s == [] then 0
    else (if s[0] as int <= 0xFFFF then 1 else 2) + Utf16Length(s[1..])
  }
}
